=== FILE: README.md ===
# Joke book: a Dafny model of its page logic

The joke book is an Android app with three screens: a cover, a category
page that loads ten jokes of a chosen category from a public joke API, and a
detail page that pages through the loaded jokes. Most of the app is Compose
layout. This project models the logic underneath it as pure functions over
immutable data and proves what that logic guarantees. It covers:

- the category page's load state machine in both copies of the page. The
  `com.example.jokebook` copy empties the list when a load starts and has a
  refresh button. The `com.example.jokebook.ui.theme` copy reloads from a
  `LaunchedEffect` keyed on the selection and keeps the old list while
  loading;
- the render priority of that page, which is spinner, then error, then
  "pick a category", then the list;
- the lenient mapping from parsed JSON records to `Joke`s;
- the detail page's start-index clamp and its bounded back/forward/drag
  paging;
- the `application/x-www-form-urlencoded` encoding of setup and punchline
  into route segments, and the decoding on the detail page (WHATWG URL
  Standard, section 5, as `URLEncoder`/`URLDecoder` apply it). It is modelled
  over UTF-8 bytes;
- the `details/{index}` route, `toIntOrNull` parsing of its argument, and the
  hand-off of the saved list to the detail page.

Files and modules:

| file | module | models |
|---|---|---|
| base.dfy | `Base` | `Option` (Kotlin null), `Result` (exceptions), `int32`, `byte` |
| jokes.dfy | `Jokes` | `Joke`, parsed records, the record-to-`Joke` mapping of `fetchJokes` |
| load_state.dfy | `LoadState` | the page state both category pages share, load completion, rendering |
| category_page.dfy | `CategoryPage` | the `com.example.jokebook` category page |
| theme_category_page.dfy | `ThemeCategoryPage` | the `ui.theme` category page and its encoded route |
| form_url_encoding.dfy | `FormUrlEncoding` | `URLEncoder.encode` / `URLDecoder.decode` over bytes |
| decimal.dfy | `Decimal` | `Int.toString()` and `String.toIntOrNull()` |
| joke_detail_page.dfy | `JokeDetailPage` | the pager and the displayed text (both copies are identical) |
| app_nav_host.dfy | `AppNavHost` | routes, route arguments, the end-to-end click-to-detail path |

Parameters instead of effects: a fetch is given by its outcome. That outcome
is either the parsed array elements or the thrown exception's message. A
user action that launches a load is followed by that load finishing with a
given result. The saved `"jokes"` entry is given as present or absent.

The app keeps no per-category cache, does not de-duplicate requests and has
no request tokens. Choosing a different chip always fetches, and so does
refresh.

## Model

| member | source | states |
|---|---|---|
| `Jokes.ToJoke` | app/src/main/java/com/example/jokebook/CategoryPage.kt:205-211 | each present field is copied; a missing `type`, `setup` or `punchline` becomes `""` and a missing `id` becomes 0 |
| `Jokes.ToJokes` | app/src/main/java/com/example/jokebook/CategoryPage.kt:204-212 | succeeds exactly when every element is an object; then the list has the array's length and element i maps element i; otherwise the error is the message of the first non-object, with all earlier elements objects |
| `Jokes.FetchJokes` | app/src/main/java/com/example/jokebook/ui/theme/CategoryPage.kt:162-174 | a failed request or parse surfaces as that failure's message; a received array loads exactly when every element is an object, and then joke i is element i mapped; otherwise the error is the first non-object's message |
| `LoadState.ErrorMessage` | app/src/main/java/com/example/jokebook/CategoryPage.kt:52 | the exception's message when it has one, `"Failed to load jokes."` otherwise |
| `LoadState.Complete` | app/src/main/java/com/example/jokebook/CategoryPage.kt:49-55 | loading ends and the selection is kept; on success the list is the result and the error untouched; on failure the list is empty and the error is the message |
| `LoadState.Render` | app/src/main/java/com/example/jokebook/CategoryPage.kt:134-153 | spinner iff loading; error iff not loading with an error, showing that error; prompt iff neither and nothing selected; list (the page's jokes) iff neither and a category selected |
| `LoadState.SettledView` | app/src/main/java/com/example/jokebook/CategoryPage.kt:38-56 | between actions the page never shows the spinner, an error comes with an empty list, and the prompt appears only on the initial page |
| `CategoryPage.StartLoad` | app/src/main/java/com/example/jokebook/CategoryPage.kt:46-48 | before any result is known: loading, no error, no jokes, selection kept |
| `CategoryPage.Load` | app/src/main/java/com/example/jokebook/CategoryPage.kt:45-56 | whatever the page held, success leaves the fetched list with no error, failure leaves an empty list with the message or the default text; loading ends either way |
| `CategoryPage.LoadFetched` | app/src/main/java/com/example/jokebook/CategoryPage.kt:45-56 | a load fed by a fetch lists one joke per element, mapped in order, when every element is an object; a failed request or a non-object element leaves an empty list and that failure's message (the first non-object's) on screen |
| `CategoryPage.ChooseChip` | app/src/main/java/com/example/jokebook/CategoryPage.kt:115-118 | clicking the selected chip changes nothing and launches nothing; any other chip is selected and exactly one load of it is launched |
| `CategoryPage.PressRefresh` | app/src/main/java/com/example/jokebook/CategoryPage.kt:87-91 | offered only with a selection; reloads the selected category and changes nothing else |
| `CategoryPage.Handle` | app/src/main/java/com/example/jokebook/CategoryPage.kt:87-118 | a launched load is always for the category the page has selected |
| `CategoryPage.Step` | app/src/main/java/com/example/jokebook/CategoryPage.kt:45-119 | after a chip click the chip is selected and after refresh the selection is kept; re-clicking the selected chip leaves the page as it was; a new chip or refresh ends with the load finished, showing the fetched list with no error, or an empty list with the message or default text |
| `CategoryPage.RefreshAlwaysReloads` | app/src/main/java/com/example/jokebook/CategoryPage.kt:87-91 | refresh launches a load of the selected category even right after a finished load, and its outcome is that load |
| `CategoryPage.FailedLoadShowsError` | app/src/main/java/com/example/jokebook/CategoryPage.kt:134-146 | with a category selected, a failed load shows its error message, and a started load shows the spinner |
| `CategoryPage.StepKeepsSettled` | app/src/main/java/com/example/jokebook/CategoryPage.kt:45-56 | every offered action keeps a settled page settled |
| `CategoryPage.RunKeepsSettled` | app/src/main/java/com/example/jokebook/CategoryPage.kt:38-56 | any sequence of offered actions from a settled page ends settled |
| `CategoryPage.IndexOf` | app/src/main/java/com/example/jokebook/CategoryPage.kt:170 | for a joke in the list, a position holding it with no earlier occurrence; -1 otherwise |
| `CategoryPage.DetailsRoute` | app/src/main/java/com/example/jokebook/CategoryPage.kt:171 | the route starts with `details/` and its argument parses back to the index when the index is an `Int` |
| `CategoryPage.ClickRoute` | app/src/main/java/com/example/jokebook/CategoryPage.kt:169-171 | the index sent for a clicked joke lies in `[0, size)` and survives the trip through the route text |
| `Decimal.FormatInt` | app/src/main/java/com/example/jokebook/CategoryPage.kt:171 | non-negative numbers print as digits only; negative ones as `-` and digits |
| `Decimal.ParseInt` | app/src/main/java/com/example/jokebook/AppNavHost.kt:34 | empty text is null; a value needs at least one digit after an optional sign; unsigned or `+` digits give their value and `-` digits its negation, exactly when that lies in `Int`'s range |
| `Decimal.ParseFormat` | app/src/main/java/com/example/jokebook/AppNavHost.kt:34 | parsing the printed text of any `Int` gives that `Int` |
| `Decimal.NoOverflowingFormat` | app/src/main/java/com/example/jokebook/AppNavHost.kt:34 | the printed text of a number outside `Int`'s range parses to null |
| `ThemeCategoryPage.ChooseChip` | app/src/main/java/com/example/jokebook/ui/theme/CategoryPage.kt:80 | a click always selects that chip and touches nothing else |
| `ThemeCategoryPage.EffectLaunch` | app/src/main/java/com/example/jokebook/ui/theme/CategoryPage.kt:39-40 | a load runs exactly when the selection changes to a category, and it loads that category |
| `ThemeCategoryPage.StartLoad` | app/src/main/java/com/example/jokebook/ui/theme/CategoryPage.kt:41-43 | loading, no error, and the previous list still in place |
| `ThemeCategoryPage.Load` | app/src/main/java/com/example/jokebook/ui/theme/CategoryPage.kt:39-51 | success leaves the fetched list with no error, failure an empty list with the message or default text; loading ends |
| `ThemeCategoryPage.Step` | app/src/main/java/com/example/jokebook/ui/theme/CategoryPage.kt:34-51 | after a click the chip is selected; re-clicking the selected chip leaves the page as it was; a new chip ends with its load finished, showing the fetched list with no error, or an empty list with the message or default text |
| `ThemeCategoryPage.ReclickDoesNotReload` | app/src/main/java/com/example/jokebook/ui/theme/CategoryPage.kt:39-40 | re-clicking the selected chip launches no load and changes nothing |
| `ThemeCategoryPage.LoadAgreesWithRoot` | app/src/main/java/com/example/jokebook/ui/theme/CategoryPage.kt:41-49 | during a load this copy keeps the old list while the other empties it, both show the spinner, and the finished pages are equal |
| `ThemeCategoryPage.ChipAgreesWithRoot` | app/src/main/java/com/example/jokebook/ui/theme/CategoryPage.kt:77-80 | a chip click ends on the same page in both copies |
| `ThemeCategoryPage.RunAgreesWithRoot` | app/src/main/java/com/example/jokebook/ui/theme/CategoryPage.kt:34-51 | any sequence of chip clicks ends on the same page in both copies, and settled |
| `ThemeCategoryPage.FailedLoadShowsError` | app/src/main/java/com/example/jokebook/ui/theme/CategoryPage.kt:95-107 | choosing a new chip whose load fails shows the error message |
| `ThemeCategoryPage.EncodedRoute` | app/src/main/java/com/example/jokebook/ui/theme/CategoryPage.kt:130-132 | the route is `details`, `/`, the encoded setup, `/`, the encoded punchline, and those two are its only `/` |
| `ThemeCategoryPage.RouteRoundTrip` | app/src/main/java/com/example/jokebook/ui/theme/CategoryPage.kt:130-132 | the route splits on `/` into exactly `details`, the encoded setup and the encoded punchline, and decoding those gives back setup and punchline |
| `FormUrlEncoding.EncodeByte` | app/src/main/java/com/example/jokebook/ui/theme/CategoryPage.kt:130 | an unreserved byte is copied, a space becomes `+`, and any other byte becomes `%` and two upper-case hex digits whose value is the byte |
| `FormUrlEncoding.Encode` | app/src/main/java/com/example/jokebook/ui/theme/CategoryPage.kt:130-131 | the output is one to three times as long as the input and holds only unreserved bytes, `+` and `%` |
| `FormUrlEncoding.EncodeKeepsUnreserved` | app/src/main/java/com/example/jokebook/ui/theme/CategoryPage.kt:130-131 | text made only of unreserved bytes encodes to itself |
| `FormUrlEncoding.Decode` | app/src/main/java/com/example/jokebook/ui/theme/JokeDetailPage.kt:31-32 | the result is never longer than the input; text with neither `+` nor `%` decodes to itself |
| `FormUrlEncoding.DecodeSucceedsIff` | app/src/main/java/com/example/jokebook/ui/theme/JokeDetailPage.kt:31-32 | decoding throws exactly when some `%` is not followed by two hex digits |
| `FormUrlEncoding.DecodeEncode` | app/src/main/java/com/example/jokebook/ui/theme/JokeDetailPage.kt:31-32 | decoding encoded text returns the original bytes exactly |
| `FormUrlEncoding.EncodeInjective` | app/src/main/java/com/example/jokebook/ui/theme/CategoryPage.kt:130-131 | two texts with the same encoding are equal |
| `FormUrlEncoding.EncodeHasNoSlash` | app/src/main/java/com/example/jokebook/ui/theme/CategoryPage.kt:132 | encoded text never contains `/` |
| `JokeDetailPage.Clamp` | app/src/main/java/com/example/jokebook/JokeDetailPage.kt:28 | fails exactly for an empty list; otherwise an in-range start is kept, a negative start becomes 0 and a too-large one becomes the last index |
| `JokeDetailPage.ClampIdempotent` | app/src/main/java/com/example/jokebook/ui/theme/JokeDetailPage.kt:28 | clamping a clamped index changes nothing |
| `JokeDetailPage.Open` | app/src/main/java/com/example/jokebook/JokeDetailPage.kt:28-29 | fails exactly for an empty list; otherwise keeps the list as handed over with the clamped index inside it |
| `JokeDetailPage.Previous` | app/src/main/java/com/example/jokebook/JokeDetailPage.kt:86-88 | offered only when the index is above 0; moves back one, stays in bounds, keeps the list |
| `JokeDetailPage.Next` | app/src/main/java/com/example/jokebook/JokeDetailPage.kt:101-103 | offered only below the last index; moves forward one, stays in bounds, keeps the list |
| `JokeDetailPage.ArrowsAreInverse` | app/src/main/java/com/example/jokebook/ui/theme/JokeDetailPage.kt:89-107 | after one arrow the other arrow is offered and undoes it |
| `JokeDetailPage.Drag` | app/src/main/java/com/example/jokebook/JokeDetailPage.kt:38-40 | a positive amount steps back and a negative one forward when possible, otherwise and for zero nothing changes; the index stays in bounds and the list is kept |
| `JokeDetailPage.Apply` | app/src/main/java/com/example/jokebook/ui/theme/JokeDetailPage.kt:38-107 | an offered back arrow moves back one and an offered forward arrow forward one, an arrow not offered does nothing; a drag moves back on a positive amount and forward on a negative one when possible, otherwise nothing changes; the index stays in bounds and the list is kept |
| `JokeDetailPage.Replay` | app/src/main/java/com/example/jokebook/ui/theme/JokeDetailPage.kt:89-107 | after any sequence of gestures the index is in bounds, the list is unchanged and the index moved at most one step per gesture |
| `JokeDetailPage.ForwardPresses` | app/src/main/java/com/example/jokebook/ui/theme/JokeDetailPage.kt:105-107 | n forward presses reach index + n, or stop at the last joke |
| `JokeDetailPage.DisplayAsWritten` | app/src/main/java/com/example/jokebook/JokeDetailPage.kt:31-32 | the page shows the decoded setup and punchline; it throws if either fails to decode, the setup's error first |
| `JokeDetailPage.MisdecodedFields` | app/src/main/java/com/example/jokebook/JokeDetailPage.kt:31-32 | a stored setup `C++` is shown as `C` and two spaces; a stored setup `100%` throws |
| `JokeDetailPage.AgreesOnPlainText` | app/src/main/java/com/example/jokebook/JokeDetailPage.kt:31-32 | on fields with neither `+` nor `%`, the page as written shows the fields as stored |
| `JokeDetailPage.AgreesOnEncodedText` | app/src/main/java/com/example/jokebook/ui/theme/JokeDetailPage.kt:31-32 | fields that were encoded before the hand-off are shown exactly as the original text |
| `AppNavHost.Resolve` | app/src/main/java/com/example/jokebook/AppNavHost.kt:14-33 | `cover` and `categories` reach their screens; a route reaches the details screen exactly when it is `details/` followed by one non-empty `/`-free segment, which becomes the argument |
| `AppNavHost.StartsAtCover` | app/src/main/java/com/example/jokebook/AppNavHost.kt:16 | navigation starts on the cover screen |
| `AppNavHost.StartIndex` | app/src/main/java/com/example/jokebook/AppNavHost.kt:34 | an absent argument, or one that does not parse as an `Int`, gives 0; otherwise its value |
| `AppNavHost.OpenDetails` | app/src/main/java/com/example/jokebook/AppNavHost.kt:35-45 | the page opens exactly when a non-empty list was saved; a missing saved list fails in the clamp; otherwise the saved list is passed unchanged and the index is the clamped parsed argument |
| `AppNavHost.MalformedIndexOpensFirst` | app/src/main/java/com/example/jokebook/AppNavHost.kt:34 | an unparsable or out-of-range argument opens the first joke of a non-empty list |
| `AppNavHost.ClickOpensClickedJoke` | app/src/main/java/com/example/jokebook/AppNavHost.kt:33-45 | clicking a joke reaches the details screen and opens the detail page on its first occurrence; the corrected page `Shown` then shows exactly its setup and punchline |
| `AppNavHost.ClickShowsPlainJoke` | app/src/main/java/com/example/jokebook/JokeDetailPage.kt:31-32 | when the clicked joke's setup and punchline hold neither `+` nor `%`, the page as written also shows exactly its setup and punchline |

## Left out

- Network I/O in `fetchJokes` is not modelled: the URL, the connection, the 10-second timeouts and the IO dispatcher. A fetch is its outcome.
- JSON text parsing is not modelled. The model starts from the parsed array elements.
- Jokes.ToJoke: a field holding a value of another JSON type is treated as missing. `optString` would convert it to text and `optInt` would convert or truncate it.
- Overlapping loads are not modelled: two `scope.launch` coroutines running at once, or a `LaunchedEffect` cancelled by a key change. A launched load finishes before the next action.
- Compose layout, colours, typography and shapes are not modelled, and neither is the chip label capitalisation (`replaceFirstChar`). `ui/theme/Theme.kt`, `CoverPage.kt` and `CoverScreen.kt` are not part of this model: they are layout, a fixed pair of palettes and the activity entry point.
- Navigation mechanics are not modelled: `navigate`, `popBackStack`, the back stack's saved-state storage, and `remember` versus `rememberSaveable` across configuration changes.
- Nothing in the navigation graph shown reaches the `ui.theme` category page or its detail page. Its three-segment route would match no destination there. The model proves the route's own properties only.
- The parameter lists at the call sites `AppNavHost.kt:19-23` and `CoverScreen.kt:26` do not match the declared signatures. They are not modelled.
- UTF-8 encoding and decoding are taken as exact inverses. Text is modelled as UTF-8 bytes, and the decoder's replacement of malformed UTF-8 is not modelled.
- FormUrlEncoding.Decode: accepts exactly two hex digits after `%`. OpenJDK's `URLDecoder` reads the pair with `Integer.parseInt`, which also accepts a sign (`%+F` decodes to 0x0F, `%-0` to 0); a decoder that checks both characters are hex digits first, as Android's is reported to, matches the model exactly. The encoder never produces these forms.
- Decimal.ParseInt: accepts only the ASCII digits `0`-`9`. Kotlin's `toIntOrNull` also accepts other Unicode decimal digits, which a route built from an `Int` never contains.
- JokeDetailPage.Drag: the drag amount is a real number. The `Float` NaN, which moves nothing because both comparisons are false, is not modelled.
- The Android navigation library URI-decodes route arguments. This is not modelled; a decimal index is unaffected by it.

## Findings

| source | as written | input that shows it | evidently intended | confidence | as-written member | corrected member |
|---|---|---|---|---|---|---|
| app/src/main/java/com/example/jokebook/JokeDetailPage.kt:31-32 | the detail page form-url-decodes setup and punchline, but this copy's list page (CategoryPage.kt:169) hands over the jokes as fetched, never encoded | a setup `C++` is shown as `C` and two spaces; a setup `100%` makes `URLDecoder` throw and the page crash | show the fields as fetched; clicking a joke shows exactly its text | high; not executed | `JokeDetailPage.MisdecodedFields` (about `JokeDetailPage.DisplayAsWritten`) | `JokeDetailPage.Shown` (proved in `AppNavHost.ClickOpensClickedJoke` and `JokeDetailPage.AgreesOnPlainText`) |

=== FILE: app_nav_host.dfy ===
/**
 The navigation graph: the `cover`, `categories` and `details/{index}`
 destinations, and how the details destination turns its route argument and
 the list the category page saved into the detail page's `startIndex` and
 `jokes`. The navigation back stack and its saved-state storage are not
 modelled; the saved list is given as present or absent.
 */
module AppNavHost {
  import opened Base
  import opened Jokes
  import Decimal
  import CategoryPage
  import JokeDetailPage
  import FormUrlEncoding

  const StartDestination: string := "cover"

  datatype Destination = CoverScreen | CategoryScreen | DetailScreen(indexArgument: Option<string>)

  /** Which destination a route reaches; `{index}` matches one non-empty path segment. */
  function Resolve(route: string): (d: Option<Destination>)
    ensures route == StartDestination <==> d == Some(CoverScreen)
    ensures route == "categories" <==> d == Some(CategoryScreen)
    ensures d.Some? && d.value.DetailScreen? ==>
              && |route| > |CategoryPage.DetailsPrefix|
              && route[..|CategoryPage.DetailsPrefix|] == CategoryPage.DetailsPrefix
              && d.value.indexArgument == Some(route[|CategoryPage.DetailsPrefix|..])
              && '/' !in route[|CategoryPage.DetailsPrefix|..]
    ensures d.None? ==> route != StartDestination && route != "categories"
    ensures |route| > |CategoryPage.DetailsPrefix| && route[..|CategoryPage.DetailsPrefix|] == CategoryPage.DetailsPrefix && '/' !in route[|CategoryPage.DetailsPrefix|..] ==>
              d == Some(DetailScreen(Some(route[|CategoryPage.DetailsPrefix|..])))
  {
    if route == StartDestination then Some(CoverScreen)
    else if route == "categories" then
      assert route[..|CategoryPage.DetailsPrefix|][0] != CategoryPage.DetailsPrefix[0];
      Some(CategoryScreen)
    else if |route| > |CategoryPage.DetailsPrefix| && route[..|CategoryPage.DetailsPrefix|] == CategoryPage.DetailsPrefix && '/' !in route[|CategoryPage.DetailsPrefix|..] then
      Some(DetailScreen(Some(route[|CategoryPage.DetailsPrefix|..])))
    else None
  }

  /** `arguments?.getString("index")?.toIntOrNull() ?: 0` */
  function StartIndex(argument: Option<string>): (i: int32)
    ensures argument.None? ==> i == 0
    ensures argument.Some? && Decimal.ParseInt(argument.value).Some? ==> i == Decimal.ParseInt(argument.value).value
    ensures argument.Some? && Decimal.ParseInt(argument.value).None? ==> i == 0
  {
    match argument
    case None => 0
    case Some(text) => Decimal.ParseInt(text).GetOr(0)
  }

  /**
   The details destination: the saved list (empty when none was saved) and
   the parsed index go to the detail page unchanged, which then clamps.
   */
  function OpenDetails(argument: Option<string>, saved: Option<seq<Joke>>): (r: Result<JokeDetailPage.Pager, JokeDetailPage.ClampError>)
    ensures r.Ok? <==> saved.Some? && saved.value != []
    ensures saved.None? ==> r == Err(JokeDetailPage.EmptyRange)
    ensures r.Ok? ==> saved.Some? && r.value.jokes == saved.value
    ensures r.Ok? ==> Ok(r.value.index) == JokeDetailPage.Clamp(StartIndex(argument), |saved.value|)
  {
    JokeDetailPage.Open(saved.GetOr([]), StartIndex(argument))
  }

  /** Anything that is not a number, or is out of `Int`'s range, opens the first joke. */
  lemma MalformedIndexOpensFirst(argument: string, jokes: seq<Joke>)
    requires Decimal.ParseInt(argument).None? && jokes != []
    ensures OpenDetails(Some(argument), Some(jokes)) == Ok(JokeDetailPage.Pager(jokes, 0))
  {
  }

  /** Navigation starts on the cover page. */
  lemma StartsAtCover()
    ensures Resolve(StartDestination) == Some(CoverScreen)
  {
  }

  /**
   End to end: clicking a joke in the category list reaches the details
   destination, which opens the detail page on the first occurrence of that
   joke; the corrected page shows exactly its setup and punchline.
   */
  lemma ClickOpensClickedJoke(jokes: seq<Joke>, joke: Joke)
    requires joke in jokes
    requires |jokes| <= MaxInt32
    ensures var route := CategoryPage.ClickRoute(jokes, joke);
            && Resolve(route) == Some(DetailScreen(Some(route[|CategoryPage.DetailsPrefix|..])))
            && OpenDetails(Some(route[|CategoryPage.DetailsPrefix|..]), Some(jokes)) == Ok(JokeDetailPage.Pager(jokes, CategoryPage.IndexOf(jokes, joke)))
            && JokeDetailPage.Shown(JokeDetailPage.Pager(jokes, CategoryPage.IndexOf(jokes, joke))) == (joke.setup, joke.punchline)
  {
    var route := CategoryPage.ClickRoute(jokes, joke);
    var k := CategoryPage.IndexOf(jokes, joke);
    assert route == CategoryPage.DetailsPrefix + Decimal.FormatInt(k);
    assert route[|CategoryPage.DetailsPrefix|..] == Decimal.FormatInt(k);
    assert '/' !in route[|CategoryPage.DetailsPrefix|..] by {
      assert Decimal.AllDigits(Decimal.FormatInt(k));
    }
  }

  /**
   On a clicked joke whose setup and punchline hold neither `+` nor `%`, the
   page as written shows exactly that setup and punchline too.
   */
  lemma ClickShowsPlainJoke(jokes: seq<Joke>, joke: Joke)
    requires joke in jokes
    requires |jokes| <= MaxInt32
    requires FormUrlEncoding.Plus !in joke.setup && FormUrlEncoding.Percent !in joke.setup
    requires FormUrlEncoding.Plus !in joke.punchline && FormUrlEncoding.Percent !in joke.punchline
    ensures var route := CategoryPage.ClickRoute(jokes, joke);
            && OpenDetails(Some(route[|CategoryPage.DetailsPrefix|..]), Some(jokes)).Ok?
            && JokeDetailPage.DisplayAsWritten(OpenDetails(Some(route[|CategoryPage.DetailsPrefix|..]), Some(jokes)).value) == Ok((joke.setup, joke.punchline))
  {
    ClickOpensClickedJoke(jokes, joke);
    JokeDetailPage.AgreesOnPlainText(JokeDetailPage.Pager(jokes, CategoryPage.IndexOf(jokes, joke)));
  }
}

=== FILE: base.dfy ===
/**
 Shared vocabulary of the model: optional values, results with an error side,
 Kotlin's 32-bit `Int` and bytes.
 */
module Base {

  /** Kotlin's nullable value: `null` is `None`. */
  datatype Option<+T> = None | Some(value: T) {

    /** The value, or `default` for `null` (Kotlin's elvis operator `?:`). */
    function GetOr(default: T): T {
      match this
      case Some(v) => v
      case None => default
    }
  }

  /** A computation that either produces a value or throws. */
  datatype Result<+T, +E> = Ok(value: T) | Err(error: E)

  const MinInt32: int := -0x8000_0000
  const MaxInt32: int := 0x7FFF_FFFF

  /** Kotlin's `Int`. */
  type int32 = x: int | MinInt32 <= x <= MaxInt32

  type byte = b: int | 0 <= b < 0x100

  function Min(a: int, b: int): int {
    if a <= b then a else b
  }

  function Max(a: int, b: int): int {
    if a >= b then a else b
  }
}

=== FILE: category_page.dfy ===
/**
 The category page of the `com.example.jokebook` package: chips that select a
 category, a refresh button, and `loadJokes`, which empties the list before
 fetching. Clicking a joke hands the whole list to the detail page and
 navigates to `details/<position of the joke>`.

 Each user action that launches `loadJokes` is followed here by that load
 running to completion with a given result; overlapping coroutines are not
 modelled.
 */
module CategoryPage {
  import opened Base
  import opened Jokes
  import opened LoadState
  import Decimal

  /** A click handler's effect: the new page and the category whose load it launched, if any. */
  datatype Reaction = Reaction(page: Page, launched: Option<string>)

  /** First half of `loadJokes`: the spinner comes up and the old list and error are gone before any result is known. */
  function StartLoad(p: Page): (q: Page)
    ensures q.loading && q.error.None? && q.jokes == []
    ensures q.selected == p.selected
  {
    p.(loading := true, error := None, jokes := [])
  }

  /** All of `loadJokes`: whatever the page held before, the result alone decides the list and the error. */
  function Load(p: Page, r: LoadResult): (q: Page)
    ensures !q.loading && q.selected == p.selected
    ensures r.Ok? ==> q.jokes == r.value && q.error.None?
    ensures r.Err? ==> q.jokes == [] && q.error == Some(ErrorMessage(r.error))
  {
    Complete(StartLoad(p), r)
  }

  /**
   A load fed by a fetch: when every array element is an object the page
   lists one joke per element, mapped in order; a failed request or a
   non-object element leaves an empty list and an error on screen.
   */
  lemma LoadFetched(p: Page, outcome: FetchOutcome)
    ensures var q := Load(p, FetchJokes(outcome));
            && !q.loading && q.selected == p.selected
            && (outcome.Received? && (forall i :: 0 <= i < |outcome.elements| ==> outcome.elements[i].Object?) ==>
                  && q.error.None?
                  && |q.jokes| == |outcome.elements|
                  && forall i :: 0 <= i < |q.jokes| ==> q.jokes[i] == ToJoke(outcome.elements[i].record))
            && (outcome.Failed? ==> q.jokes == [] && q.error == Some(ErrorMessage(outcome.message)))
            && (outcome.Received? && (exists i :: 0 <= i < |outcome.elements| && outcome.elements[i].NotAnObject?) ==>
                  && q.jokes == []
                  && exists k :: && 0 <= k < |outcome.elements| && outcome.elements[k].NotAnObject?
                                 && q.error == Some(outcome.elements[k].failure)
                                 && forall i :: 0 <= i < k ==> outcome.elements[i].Object?)
  {
  }

  /** A chip click: re-clicking the selected chip does nothing; any other chip is selected and loaded once. */
  function ChooseChip(p: Page, category: string): (r: Reaction)
    ensures p.selected == Some(category) ==> r == Reaction(p, None)
    ensures p.selected != Some(category) ==> r.page == p.(selected := Some(category)) && r.launched == Some(category)
  {
    if p.selected != Some(category) then Reaction(p.(selected := Some(category)), Some(category))
    else Reaction(p, None)
  }

  /** The refresh button is composed only while a category is selected. */
  predicate RefreshOffered(p: Page) {
    p.selected.Some?
  }

  /** Refresh reloads the selected category and leaves the page itself as it is. */
  function PressRefresh(p: Page): (r: Reaction)
    requires RefreshOffered(p)
    ensures r.page == p
    ensures r.launched == p.selected
  {
    match p.selected
    case Some(category) => Reaction(p, Some(category))
  }

  datatype Action = ChipClicked(category: string) | RefreshClicked

  /** An action the page can receive: a click on one of its chips, or on refresh while it is shown. */
  predicate Offered(p: Page, a: Action) {
    match a
    case ChipClicked(category) => category in Categories
    case RefreshClicked => RefreshOffered(p)
  }

  function Handle(p: Page, a: Action): (r: Reaction)
    requires Offered(p, a)
    ensures r.launched.Some? ==> r.page.selected == r.launched
  {
    match a
    case ChipClicked(category) => ChooseChip(p, category)
    case RefreshClicked => PressRefresh(p)
  }

  /** One action, then the load it launched (if any) finishing with `result`. */
  function Step(p: Page, a: Action, result: LoadResult): (q: Page)
    requires Offered(p, a)
    ensures a.ChipClicked? ==> q.selected == Some(a.category)
    ensures a.RefreshClicked? ==> q.selected == p.selected
    ensures a.ChipClicked? && p.selected == Some(a.category) ==> q == p
    ensures (a.RefreshClicked? || p.selected != Some(a.category)) && result.Ok? ==>
              !q.loading && q.jokes == result.value && q.error.None?
    ensures (a.RefreshClicked? || p.selected != Some(a.category)) && result.Err? ==>
              !q.loading && q.jokes == [] && q.error == Some(ErrorMessage(result.error))
  {
    var r := Handle(p, a);
    if r.launched.Some? then Load(r.page, result) else r.page
  }

  /** Pressing refresh issues a load even right after one finished, and keeps the selection. */
  lemma RefreshAlwaysReloads(p: Page, result: LoadResult)
    requires RefreshOffered(p)
    ensures Handle(p, RefreshClicked).launched == p.selected
    ensures Step(p, RefreshClicked, result) == Load(p, result)
  {
  }

  /** A load that fails while a category is selected puts its message on screen. */
  lemma FailedLoadShowsError(p: Page, failure: Option<string>)
    requires p.selected.Some?
    ensures Render(Load(p, Err(failure))) == ErrorText(ErrorMessage(failure))
    ensures Render(StartLoad(p)) == Spinner
  {
  }

  /** Every offered action leaves a settled page settled. */
  lemma StepKeepsSettled(p: Page, a: Action, result: LoadResult)
    requires Settled(p) && Offered(p, a)
    ensures Settled(Step(p, a, result))
  {
  }

  /** Actions replayed in order while they are offered; an action that is not offered ends the run. */
  function Run(p: Page, steps: seq<(Action, LoadResult)>): Page
    decreases |steps|
  {
    if steps == [] || !Offered(p, steps[0].0) then p
    else Run(Step(p, steps[0].0, steps[0].1), steps[1..])
  }

  /** From the initial page, any run of user actions ends settled. */
  lemma {:induction false} RunKeepsSettled(p: Page, steps: seq<(Action, LoadResult)>)
    requires Settled(p)
    ensures Settled(Run(p, steps))
    decreases |steps|
  {
    if steps != [] && Offered(p, steps[0].0) {
      StepKeepsSettled(p, steps[0].0, steps[0].1);
      RunKeepsSettled(Step(p, steps[0].0, steps[0].1), steps[1..]);
    }
  }

  /**
   `jokes.indexOf(joke)`: the position of the first element equal to `x`, or
   -1 when there is none.
   */
  function IndexOf(s: seq<Joke>, x: Joke): (k: int)
    ensures x in s ==> 0 <= k < |s| && s[k] == x
    ensures x in s ==> forall j :: 0 <= j < k ==> s[j] != x
    ensures x !in s ==> k == -1
  {
    if s == [] then -1
    else if s[0] == x then 0
    else
      var k := IndexOf(s[1..], x);
      if k == -1 then -1 else k + 1
  }

  /** The fixed part of the detail page's route, before its `{index}` argument. */
  const DetailsPrefix: string := "details/"

  /** `"details/$index"` */
  function DetailsRoute(index: int): (route: string)
    ensures |route| > |DetailsPrefix| && route[..|DetailsPrefix|] == DetailsPrefix
    ensures Decimal.ParseInt(route[|DetailsPrefix|..]) == (if MinInt32 <= index <= MaxInt32 then Some(index) else None)
  {
    var route := DetailsPrefix + Decimal.FormatInt(index);
    assert route[|DetailsPrefix|..] == Decimal.FormatInt(index);
    if MinInt32 <= index <= MaxInt32 then
      Decimal.ParseFormat(index);
      route
    else
      Decimal.NoOverflowingFormat(index);
      route
  }

  /** The route a click on `joke` navigates to: the position of its first occurrence in the list. */
  function ClickRoute(jokes: seq<Joke>, joke: Joke): (route: string)
    requires joke in jokes
    requires |jokes| <= MaxInt32
    ensures |route| > |DetailsPrefix| && route[..|DetailsPrefix|] == DetailsPrefix
    ensures Decimal.ParseInt(route[|DetailsPrefix|..]) == Some(IndexOf(jokes, joke))
    ensures 0 <= IndexOf(jokes, joke) < |jokes|
  {
    DetailsRoute(IndexOf(jokes, joke))
  }
}

=== FILE: decimal.dfy ===
/**
 Decimal text for Kotlin `Int`s: the string template `"$index"` (Int.toString)
 and `String.toIntOrNull()` that reads it back.
 */
module Decimal {
  import opened Base

  predicate IsDigit(c: char) {
    '0' <= c <= '9'
  }

  predicate AllDigits(s: string) {
    forall i :: 0 <= i < |s| ==> IsDigit(s[i])
  }

  function DigitValue(c: char): nat
    requires IsDigit(c)
  {
    c as int - '0' as int
  }

  function DigitChar(d: nat): (c: char)
    requires d < 10
    ensures IsDigit(c) && DigitValue(c) == d
  {
    ('0' as int + d) as char
  }

  /** The number a string of digits denotes, most significant digit first. */
  function Value(s: string): nat
    requires AllDigits(s)
  {
    if s == [] then 0 else 10 * Value(s[..|s| - 1]) + DigitValue(s[|s| - 1])
  }

  /** Shortest decimal digits of `n`. */
  function FormatNat(n: nat): (s: string)
    ensures |s| > 0 && AllDigits(s)
  {
    if n < 10 then [DigitChar(n)] else FormatNat(n / 10) + [DigitChar(n % 10)]
  }

  /** `Int.toString()`: a minus sign for negatives, then the digits. */
  function FormatInt(n: int): (s: string)
    ensures |s| > 0
    ensures n >= 0 <==> AllDigits(s)
    ensures n < 0 ==> s[0] == '-' && AllDigits(s[1..])
  {
    if n < 0 then
      var s := "-" + FormatNat(-n);
      assert !IsDigit(s[0]);
      s
    else FormatNat(n)
  }

  /** The digits after an optional leading sign. */
  function Unsigned(s: string): string {
    if |s| > 0 && (s[0] == '+' || s[0] == '-') then s[1..] else s
  }

  /**
   `String.toIntOrNull()`: an optional `+` or `-`, at least one digit, and a
   value inside `Int`'s range; anything else is `null`.
   */
  function ParseInt(s: string): (r: Option<int32>)
    ensures |s| == 0 ==> r.None?
    ensures r.Some? ==> |Unsigned(s)| > 0 && AllDigits(Unsigned(s))
    ensures |s| > 0 && AllDigits(s) ==> (r.Some? <==> Value(s) <= MaxInt32)
    ensures |s| > 0 && AllDigits(s) && r.Some? ==> r.value == Value(s)
    ensures |s| > 1 && s[0] == '+' && AllDigits(s[1..]) ==> (r.Some? <==> Value(s[1..]) <= MaxInt32)
    ensures |s| > 1 && s[0] == '+' && AllDigits(s[1..]) && r.Some? ==> r.value == Value(s[1..])
    ensures |s| > 1 && s[0] == '-' && AllDigits(s[1..]) ==> (r.Some? <==> Value(s[1..]) <= -MinInt32)
    ensures |s| > 1 && s[0] == '-' && AllDigits(s[1..]) && r.Some? ==> r.value == -(Value(s[1..]) as int)
  {
    var digits := Unsigned(s);
    if |digits| == 0 || !AllDigits(digits) then None
    else
      var v := if s[0] == '-' then -(Value(digits) as int) else Value(digits);
      if MinInt32 <= v <= MaxInt32 then Some(v) else None
  }

  lemma {:induction false} ValueOfFormat(n: nat)
    ensures Value(FormatNat(n)) == n
  {
    if n >= 10 {
      var s := FormatNat(n);
      assert s[..|s| - 1] == FormatNat(n / 10);
      ValueOfFormat(n / 10);
    }
  }

  /** Reading back the text of any `Int` gives that `Int`. */
  lemma ParseFormat(n: int32)
    ensures ParseInt(FormatInt(n)) == Some(n)
  {
    if n < 0 {
      ValueOfFormat(-(n as int));
      assert FormatInt(n)[1..] == FormatNat(-(n as int));
    } else {
      ValueOfFormat(n);
    }
  }

  /** The text of a number outside `Int`'s range does not parse back. */
  lemma NoOverflowingFormat(n: int)
    requires !(MinInt32 <= n <= MaxInt32)
    ensures ParseInt(FormatInt(n)) == None
  {
    var s := FormatInt(n);
    if n < 0 {
      assert s[1..] == FormatNat(-n);
      ValueOfFormat(-n);
    } else {
      ValueOfFormat(n);
    }
  }
}

=== FILE: form_url_encoding.dfy ===
/**
 The `application/x-www-form-urlencoded` byte serializer and parser (WHATWG
 URL Standard, section 5) as `java.net.URLEncoder.encode` and
 `java.net.URLDecoder.decode` apply them to the UTF-8 bytes of a string:
 ASCII letters, digits and `.`, `-`, `*`, `_` stay as they are, a space becomes
 `+`, and every other byte becomes `%` and two upper-case hex digits. The
 decoder undoes this and throws on a `%` that is not followed by two hex
 digits.
 */
module FormUrlEncoding {
  import opened Base

  const Space: byte := 0x20
  const Percent: byte := 0x25
  const Plus: byte := 0x2B
  const Slash: byte := 0x2F

  /** The bytes the encoder copies unchanged. */
  predicate IsUnreserved(b: byte) {
    || 0x30 <= b <= 0x39  // 0-9
    || 0x41 <= b <= 0x5A  // A-Z
    || 0x61 <= b <= 0x7A  // a-z
    || b == 0x2A          // *
    || b == 0x2D          // -
    || b == 0x2E          // .
    || b == 0x5F          // _
  }

  predicate IsHexDigit(b: byte) {
    0x30 <= b <= 0x39 || 0x41 <= b <= 0x46 || 0x61 <= b <= 0x66
  }

  /** The value of a hex digit; either case is accepted. */
  function HexValue(b: byte): (n: nat)
    requires IsHexDigit(b)
    ensures n < 16
  {
    if b <= 0x39 then b - 0x30 else if b <= 0x46 then b - 0x41 + 10 else b - 0x61 + 10
  }

  /** The upper-case hex digit the encoder writes for `n`. */
  function HexDigit(n: nat): (b: byte)
    requires n < 16
    ensures IsHexDigit(b) && IsUnreserved(b) && HexValue(b) == n
    ensures b < 0x61
  {
    if n < 10 then 0x30 + n else 0x41 + (n - 10)
  }

  /** The encoding of one byte. */
  function EncodeByte(b: byte): (r: seq<byte>)
    ensures |r| == 1 || |r| == 3
    ensures forall i :: 0 <= i < |r| ==> IsUnreserved(r[i]) || r[i] == Plus || r[i] == Percent
    ensures IsUnreserved(b) ==> r == [b]
    ensures b == Space ==> r == [Plus]
    ensures !IsUnreserved(b) && b != Space ==>
              && |r| == 3 && r[0] == Percent
              && IsHexDigit(r[1]) && IsHexDigit(r[2]) && r[1] < 0x61 && r[2] < 0x61
              && 16 * HexValue(r[1]) + HexValue(r[2]) == b
  {
    if IsUnreserved(b) then [b]
    else if b == Space then [Plus]
    else [Percent, HexDigit(b / 16), HexDigit(b % 16)]
  }

  /** `URLEncoder.encode(text, "UTF-8")`; every output byte is unreserved, `+` or `%`. */
  function Encode(s: seq<byte>): (r: seq<byte>)
    ensures |s| <= |r| <= 3 * |s|
    ensures forall i :: 0 <= i < |r| ==> IsUnreserved(r[i]) || r[i] == Plus || r[i] == Percent
  {
    if s == [] then [] else EncodeByte(s[0]) + Encode(s[1..])
  }

  /** Text made only of unreserved bytes is its own encoding. */
  lemma {:induction false} EncodeKeepsUnreserved(s: seq<byte>)
    requires forall i :: 0 <= i < |s| ==> IsUnreserved(s[i])
    ensures Encode(s) == s
  {
    if s != [] {
      assert IsUnreserved(s[0]);
      assert forall i :: 0 <= i < |s[1..]| ==> IsUnreserved(s[1..][i]) by {
        forall i | 0 <= i < |s[1..]| ensures IsUnreserved(s[1..][i]) {
          assert s[1..][i] == s[i + 1];
        }
      }
      EncodeKeepsUnreserved(s[1..]);
      assert [s[0]] + s[1..] == s;
    }
  }

  /** The two exceptions `URLDecoder.decode` throws. */
  datatype DecodeError = IncompleteTrailingEscape | IllegalHexCharacters

  /** Puts `b` in front of a successful decoding; an error passes through. */
  function Prepend(b: byte, r: Result<seq<byte>, DecodeError>): (q: Result<seq<byte>, DecodeError>)
    ensures q.Ok? <==> r.Ok?
    ensures q.Ok? ==> q.value == [b] + r.value
    ensures q.Err? ==> q == r
  {
    match r
    case Ok(rest) => Ok([b] + rest)
    case Err(e) => r
  }

  /**
   `URLDecoder.decode(text, "UTF-8")`, read left to right: `+` is a space,
   `%` must be followed by two hex digits (fewer than two characters left
   is an incomplete escape), anything else is copied.
   */
  function Decode(s: seq<byte>): (r: Result<seq<byte>, DecodeError>)
    ensures r.Ok? ==> |r.value| <= |s|
    ensures Percent !in s && Plus !in s ==> r == Ok(s)
    decreases |s|
  {
    if s == [] then Ok([])
    else if s[0] == Plus then Prepend(Space, Decode(s[1..]))
    else if s[0] == Percent then
      if |s| < 3 then Err(IncompleteTrailingEscape)
      else if !IsHexDigit(s[1]) || !IsHexDigit(s[2]) then Err(IllegalHexCharacters)
      else Prepend(16 * HexValue(s[1]) + HexValue(s[2]), Decode(s[3..]))
    else
      assert Percent !in s && Plus !in s ==> Percent !in s[1..] && Plus !in s[1..];
      assert [s[0]] + s[1..] == s;
      Prepend(s[0], Decode(s[1..]))
  }

  /** Every `%` in `s` is followed by two hex digits. */
  predicate EscapesWellFormed(s: seq<byte>) {
    forall i :: 0 <= i < |s| && s[i] == Percent ==> i + 2 < |s| && IsHexDigit(s[i + 1]) && IsHexDigit(s[i + 2])
  }

  /** The decoder throws exactly when some `%` is not followed by two hex digits. */
  lemma {:induction false} DecodeSucceedsIff(s: seq<byte>)
    ensures Decode(s).Ok? <==> EscapesWellFormed(s)
    decreases |s|
  {
    if s == [] {
    } else if s[0] == Percent && (|s| < 3 || !IsHexDigit(s[1]) || !IsHexDigit(s[2])) {
      assert Decode(s).Err?;
    } else {
      var k := if s[0] == Percent then 3 else 1;
      var rest := s[k..];
      DecodeSucceedsIff(rest);
      assert Decode(s).Ok? <==> Decode(rest).Ok?;
      if EscapesWellFormed(s) {
        forall j | 0 <= j < |rest| && rest[j] == Percent
          ensures j + 2 < |rest| && IsHexDigit(rest[j + 1]) && IsHexDigit(rest[j + 2])
        {
          assert s[j + k] == rest[j];
        }
      }
      if EscapesWellFormed(rest) {
        forall i | 0 <= i < |s| && s[i] == Percent
          ensures i + 2 < |s| && IsHexDigit(s[i + 1]) && IsHexDigit(s[i + 2])
        {
          if i >= k {
            assert rest[i - k] == s[i];
            assert rest[i - k + 1] == s[i + 1] && rest[i - k + 2] == s[i + 2];
          }
        }
      }
    }
  }

  /** Decoding the encoding of one byte in front of anything yields that byte in front of the rest's decoding. */
  lemma DecodeEncodedByte(b: byte, rest: seq<byte>)
    ensures Decode(EncodeByte(b) + rest) == Prepend(b, Decode(rest))
  {
    var e := EncodeByte(b) + rest;
    if IsUnreserved(b) {
      assert e[1..] == rest;
    } else if b == Space {
      assert e[1..] == rest;
    } else {
      assert e[3..] == rest;
      assert 16 * (b / 16) + b % 16 == b;
    }
  }

  /** Round trip: the decoder returns exactly the bytes that were encoded. */
  lemma {:induction false} DecodeEncode(s: seq<byte>)
    ensures Decode(Encode(s)) == Ok(s)
  {
    if s != [] {
      DecodeEncode(s[1..]);
      DecodeEncodedByte(s[0], Encode(s[1..]));
      assert [s[0]] + s[1..] == s;
    }
  }

  /** Encoding is one-to-one, so two different texts never produce the same route segment. */
  lemma EncodeInjective(s: seq<byte>, t: seq<byte>)
    requires Encode(s) == Encode(t)
    ensures s == t
  {
    DecodeEncode(s);
    DecodeEncode(t);
  }

  /** An encoded text never contains `/`, so it fits in one path segment. */
  lemma EncodeHasNoSlash(s: seq<byte>)
    ensures Slash !in Encode(s)
  {
  }
}

=== FILE: joke_detail_page.dfy ===
/**
 The joke detail page; its two copies (`com.example.jokebook` and
 `com.example.jokebook.ui.theme`) share the same paging logic. The page
 clamps its start index into the list, shows the joke at the current index
 after form-url-decoding its setup and punchline, and moves one joke back or
 forward on an arrow press or a horizontal drag.
 */
module JokeDetailPage {
  import opened Base
  import opened Jokes
  import opened FormUrlEncoding

  /** `coerceIn` throws on an empty range, which `jokes.indices` is for an empty list. */
  datatype ClampError = EmptyRange

  /** `startIndex.coerceIn(jokes.indices)` for a list of `size` jokes. */
  function Clamp(start: int32, size: nat): (r: Result<nat, ClampError>)
    ensures r.Err? <==> size == 0
    ensures r.Ok? ==> r.value < size
    ensures r.Ok? && 0 <= start < size ==> r.value == start
    ensures r.Ok? && start < 0 ==> r.value == 0
    ensures r.Ok? && start >= size ==> r.value == size - 1
  {
    if size == 0 then Err(EmptyRange)
    else Ok(Max(0, Min(start, size - 1)))
  }

  /** Clamping is idempotent: an index already clamped stays where it is. */
  lemma ClampIdempotent(start: int32, size: nat)
    requires size <= MaxInt32 && Clamp(start, size).Ok?
    ensures Clamp(Clamp(start, size).value as int32, size) == Clamp(start, size)
  {
  }

  /** The page's state: the list it was handed and `currentIndex`. */
  datatype Pager = Pager(jokes: seq<Joke>, index: nat)

  predicate Valid(p: Pager) {
    p.index < |p.jokes|
  }

  /** Opening the page: the list is kept as handed over and the index is clamped into it. */
  function Open(jokes: seq<Joke>, start: int32): (r: Result<Pager, ClampError>)
    ensures r.Err? <==> jokes == []
    ensures r.Ok? ==> Valid(r.value) && r.value.jokes == jokes && Ok(r.value.index) == Clamp(start, |jokes|)
  {
    match Clamp(start, |jokes|)
    case Ok(i) => Ok(Pager(jokes, i))
    case Err(e) => Err(e)
  }

  /** The back arrow is composed exactly when `currentIndex > 0`. */
  predicate HasPrevious(p: Pager) {
    p.index > 0
  }

  /** The forward arrow is composed exactly when `currentIndex < jokes.lastIndex`. */
  predicate HasNext(p: Pager) {
    p.index < |p.jokes| - 1
  }

  function Previous(p: Pager): (q: Pager)
    requires Valid(p) && HasPrevious(p)
    ensures Valid(q) && q.jokes == p.jokes && q.index + 1 == p.index
  {
    p.(index := p.index - 1)
  }

  function Next(p: Pager): (q: Pager)
    requires Valid(p) && HasNext(p)
    ensures Valid(q) && q.jokes == p.jokes && q.index == p.index + 1
  {
    p.(index := p.index + 1)
  }

  /** The back arrow undoes the forward arrow and vice versa. */
  lemma ArrowsAreInverse(p: Pager)
    requires Valid(p)
    ensures HasNext(p) ==> HasPrevious(Next(p)) && Previous(Next(p)) == p
    ensures HasPrevious(p) ==> HasNext(Previous(p)) && Next(Previous(p)) == p
  {
  }

  /**
   One horizontal drag event: a positive amount steps back, a negative one
   forward, each only while there is a joke in that direction; zero does
   nothing.
   */
  function Drag(p: Pager, amount: real): (q: Pager)
    requires Valid(p)
    ensures Valid(q) && q.jokes == p.jokes
    ensures amount > 0.0 && HasPrevious(p) ==> q.index + 1 == p.index
    ensures amount < 0.0 && HasNext(p) ==> q.index == p.index + 1
    ensures (amount == 0.0 || (amount > 0.0 && !HasPrevious(p)) || (amount < 0.0 && !HasNext(p))) ==> q == p
  {
    var afterBack := if amount > 0.0 && HasPrevious(p) then Previous(p) else p;
    if amount < 0.0 && HasNext(afterBack) then Next(afterBack) else afterBack
  }

  /** What the user can do on the page. */
  datatype Gesture = BackArrow | ForwardArrow | DragBy(amount: real)

  /** An arrow that is not composed cannot be pressed, so pressing it changes nothing. */
  function Apply(p: Pager, g: Gesture): (q: Pager)
    requires Valid(p)
    ensures Valid(q) && q.jokes == p.jokes
    ensures q.index <= p.index + 1 && p.index <= q.index + 1
    ensures g.BackArrow? ==> if HasPrevious(p) then q.index + 1 == p.index else q == p
    ensures g.ForwardArrow? ==> if HasNext(p) then q.index == p.index + 1 else q == p
    ensures g.DragBy? && g.amount > 0.0 && HasPrevious(p) ==> q.index + 1 == p.index
    ensures g.DragBy? && g.amount < 0.0 && HasNext(p) ==> q.index == p.index + 1
    ensures g.DragBy? && (g.amount == 0.0 || (g.amount > 0.0 && !HasPrevious(p)) || (g.amount < 0.0 && !HasNext(p))) ==> q == p
  {
    match g
    case BackArrow => if HasPrevious(p) then Previous(p) else p
    case ForwardArrow => if HasNext(p) then Next(p) else p
    case DragBy(amount) => Drag(p, amount)
  }

  /** Gestures applied in order: the index stays inside the list and the list never changes. */
  function Replay(p: Pager, gestures: seq<Gesture>): (q: Pager)
    requires Valid(p)
    ensures Valid(q) && q.jokes == p.jokes
    ensures q.index <= p.index + |gestures| && p.index <= q.index + |gestures|
    decreases |gestures|
  {
    if gestures == [] then p else Replay(Apply(p, gestures[0]), gestures[1..])
  }

  /** `n` presses of the forward arrow reach joke `index + n`, or stop at the last one. */
  lemma {:induction false} ForwardPresses(p: Pager, n: nat)
    requires Valid(p)
    ensures Replay(p, seq(n, _ => ForwardArrow)).index == Min(p.index + n, |p.jokes| - 1)
    decreases n
  {
    if n > 0 {
      var gs := seq(n, _ => ForwardArrow);
      assert gs[0] == ForwardArrow;
      assert gs[1..] == seq(n - 1, _ => ForwardArrow);
      ForwardPresses(Apply(p, ForwardArrow), n - 1);
    }
  }

  /**
   What the page displays as written: both fields form-url-decoded, the
   setup first; an undecodable field throws.
   */
  function DisplayAsWritten(p: Pager): (r: Result<(Text, Text), DecodeError>)
    requires Valid(p)
    ensures r.Ok? <==> Decode(p.jokes[p.index].setup).Ok? && Decode(p.jokes[p.index].punchline).Ok?
    ensures r.Ok? ==> r.value == (Decode(p.jokes[p.index].setup).value, Decode(p.jokes[p.index].punchline).value)
    ensures Decode(p.jokes[p.index].setup).Err? ==> r == Err(Decode(p.jokes[p.index].setup).error)
  {
    var joke := p.jokes[p.index];
    match Decode(joke.setup)
    case Err(e) => Err(e)
    case Ok(setup) =>
      match Decode(joke.punchline)
      case Err(e) => Err(e)
      case Ok(punchline) => Ok((setup, punchline))
  }

  /** The text `C++`. */
  const CPlusPlus: Text := [0x43, 0x2B, 0x2B]
  /** The text `100%`. */
  const HundredPercent: Text := [0x31, 0x30, 0x30, 0x25]

  /**
   Fields that were never encoded are mangled: a setup `C++` shows as `C`
   followed by two spaces, and a setup `100%` makes the page throw.
   */
  lemma MisdecodedFields(punchline: Text)
    requires Plus !in punchline && Percent !in punchline
    ensures DisplayAsWritten(Pager([Joke([], CPlusPlus, punchline, 0)], 0)) == Ok(([0x43, 0x20, 0x20], punchline))
    ensures DisplayAsWritten(Pager([Joke([], HundredPercent, punchline, 0)], 0)) == Err(IncompleteTrailingEscape)
  {
    var none: Text := [];
    var oneLeft: Text := [Plus];
    var twoLeft: Text := [Plus, Plus];
    assert Decode(none) == Ok([]);
    assert oneLeft[1..] == none;
    assert Decode(oneLeft) == Prepend(Space, Decode(none));
    assert [Space] + [] == [Space];
    assert Decode(oneLeft) == Ok([Space]);
    assert [Space] + [Space] == [Space, Space];
    assert twoLeft[1..] == oneLeft;
    assert Decode(twoLeft) == Prepend(Space, Decode(oneLeft));
    assert CPlusPlus[1..] == twoLeft;
    assert Decode(twoLeft) == Ok([Space, Space]);
    assert Decode(CPlusPlus) == Prepend(0x43, Decode(twoLeft));
    assert [0x43] + [Space, Space] == [0x43, 0x20, 0x20];
    assert Decode(CPlusPlus) == Ok([0x43, 0x20, 0x20]);
    assert Decode(punchline) == Ok(punchline);
    assert HundredPercent[1..][1..][1..] == [Percent];
    assert HundredPercent[1..][1..] == [0x30, Percent];
  }

  /** The corrected page: the current joke's fields exactly as they were fetched. */
  function Shown(p: Pager): (Text, Text)
    requires Valid(p)
  {
    var joke := p.jokes[p.index];
    (joke.setup, joke.punchline)
  }

  /** Decoding changes nothing on text with neither `+` nor `%`, so there the page as written shows the corrected text. */
  lemma AgreesOnPlainText(p: Pager)
    requires Valid(p)
    requires Plus !in p.jokes[p.index].setup && Percent !in p.jokes[p.index].setup
    requires Plus !in p.jokes[p.index].punchline && Percent !in p.jokes[p.index].punchline
    ensures DisplayAsWritten(p) == Ok(Shown(p))
  {
  }

  /** Had the fields been encoded on the way in, as the other list page does for its route, decoding would restore them. */
  lemma AgreesOnEncodedText(p: Pager, joke: Joke)
    requires Valid(p)
    requires p.jokes[p.index] == joke.(setup := Encode(joke.setup), punchline := Encode(joke.punchline))
    ensures DisplayAsWritten(p) == Ok((joke.setup, joke.punchline))
  {
    DecodeEncode(joke.setup);
    DecodeEncode(joke.punchline);
  }
}

=== FILE: jokes.dfy ===
/**
 The joke record and the lenient mapping `fetchJokes` applies to every element
 of the JSON array the joke API returns. The HTTP request and the JSON text
 parser are not modelled: a fetch is given as its outcome, either the parsed
 array elements or the failure it threw.
 */
module Jokes {
  import opened Base

  /** The UTF-8 bytes of a Kotlin `String`; the codec is taken as given. */
  type Text = seq<byte>

  /** `data class Joke(type, setup, punchline, id)`; `type` is a Dafny keyword, hence `kind`. */
  datatype Joke = Joke(kind: Text, setup: Text, punchline: Text, id: int32)

  /**
   One JSON object as `optString`/`optInt` see it: a field that is absent
   (or not convertible) is `None`.
   */
  datatype Record = Record(kind: Option<Text>, setup: Option<Text>, punchline: Option<Text>, id: Option<int32>)

  /** An element of the parsed array: an object, or something `getJSONObject` refuses with a message. */
  datatype Element = Object(record: Record) | NotAnObject(failure: string)

  /** What the network request and the JSON parser produced: the array's elements or an exception's message (possibly null). */
  datatype FetchOutcome = Received(elements: seq<Element>) | Failed(message: Option<string>)

  /** The value of `fetchJokes(category)`: the list, or the thrown exception's `localizedMessage`. */
  type LoadResult = Result<seq<Joke>, Option<string>>

  /** `optString` yields `""` for a missing field and `optInt` yields `0`. */
  function ToJoke(r: Record): (j: Joke)
    ensures r.kind.Some? ==> j.kind == r.kind.value
    ensures r.kind.None? ==> j.kind == []
    ensures r.setup.Some? ==> j.setup == r.setup.value
    ensures r.setup.None? ==> j.setup == []
    ensures r.punchline.Some? ==> j.punchline == r.punchline.value
    ensures r.punchline.None? ==> j.punchline == []
    ensures r.id.Some? ==> j.id == r.id.value
    ensures r.id.None? ==> j.id == 0
  {
    Joke(r.kind.GetOr([]), r.setup.GetOr([]), r.punchline.GetOr([]), r.id.GetOr(0))
  }

  /** `List(arr.length()) { i -> ... }`: element by element, in order; the first non-object throws. */
  function ToJokes(elements: seq<Element>): (r: LoadResult)
    ensures r.Ok? <==> forall i :: 0 <= i < |elements| ==> elements[i].Object?
    ensures r.Ok? ==> |r.value| == |elements|
    ensures r.Ok? ==> forall i :: 0 <= i < |elements| ==> r.value[i] == ToJoke(elements[i].record)
    ensures r.Err? ==> exists k :: 0 <= k < |elements| && elements[k].NotAnObject? && r.error == Some(elements[k].failure)
                                    && forall i :: 0 <= i < k ==> elements[i].Object?
  {
    if elements == [] then Ok([])
    else
      match elements[0]
      case NotAnObject(m) => Err(Some(m))
      case Object(rec) =>
        var rest := ToJokes(elements[1..]);
        if rest.Ok? then Ok([ToJoke(rec)] + rest.value)
        else
          ghost var k :| 0 <= k < |elements[1..]| && elements[1..][k].NotAnObject? && rest.error == Some(elements[1..][k].failure)
                         && forall i :: 0 <= i < k ==> elements[1..][i].Object?;
          assert elements[k + 1] == elements[1..][k];
          assert forall i :: 0 <= i < k + 1 ==> elements[i].Object? by {
            forall i | 0 <= i < k + 1 ensures elements[i].Object? {
              if i > 0 {
                assert elements[i] == elements[1..][i - 1];
              }
            }
          }
          Err(rest.error)
  }

  /** `fetchJokes`: a failed request or parse throws; otherwise every element is mapped. */
  function FetchJokes(outcome: FetchOutcome): (r: LoadResult)
    ensures outcome.Failed? ==> r == Err(outcome.message)
    ensures r.Ok? ==> outcome.Received? && |r.value| == |outcome.elements|
    ensures outcome.Received? ==> (r.Ok? <==> forall i :: 0 <= i < |outcome.elements| ==> outcome.elements[i].Object?)
    ensures r.Ok? ==> forall i :: 0 <= i < |r.value| ==> r.value[i] == ToJoke(outcome.elements[i].record)
    ensures outcome.Received? && r.Err? ==>
              exists k :: && 0 <= k < |outcome.elements| && outcome.elements[k].NotAnObject?
                          && r.error == Some(outcome.elements[k].failure)
                          && forall i :: 0 <= i < k ==> outcome.elements[i].Object?
  {
    match outcome
    case Failed(m) => Err(m)
    case Received(es) => ToJokes(es)
  }
}

=== FILE: load_state.dfy ===
/**
 The state both category pages keep — `selectedCategory`, `jokes`,
 `isLoading`, `error` — how a finished load writes into it, and the `when`
 that picks what the page shows. The two page variants share these parts
 word for word; they differ in how a load is started (see CategoryPage and
 ThemeCategoryPage).
 */
module LoadState {
  import opened Base
  import opened Jokes

  /** Shown when the exception carries no message. */
  const DefaultError: string := "Failed to load jokes."

  /** The three chips, in the order they are laid out. */
  const Categories: seq<string> := ["general", "knock-knock", "programming"]

  datatype Page = Page(selected: Option<string>, jokes: seq<Joke>, loading: bool, error: Option<string>)

  /** Nothing selected, no jokes, not loading, no error. */
  const Initial: Page := Page(None, [], false, None)

  /** `e.localizedMessage ?: "Failed to load jokes."` */
  function ErrorMessage(failure: Option<string>): (m: string)
    ensures failure.Some? ==> m == failure.value
    ensures failure.None? ==> m == DefaultError
  {
    failure.GetOr(DefaultError)
  }

  /**
   The end of a load: the list replaces `jokes`, or the failure empties it
   and sets `error`; either way loading stops. A success leaves `error` as it
   found it. The selection is never touched.
   */
  function Complete(p: Page, r: LoadResult): (q: Page)
    ensures !q.loading && q.selected == p.selected
    ensures r.Ok? ==> q.jokes == r.value && q.error == p.error
    ensures r.Err? ==> q.jokes == [] && q.error == Some(ErrorMessage(r.error))
  {
    match r
    case Ok(list) => p.(jokes := list, loading := false)
    case Err(failure) => p.(jokes := [], error := Some(ErrorMessage(failure)), loading := false)
  }

  /** The four branches of the page body. */
  datatype View = Spinner | ErrorText(message: string) | PickPrompt | JokeList(items: seq<Joke>)

  /** Loading wins over an error, an error over a missing selection, and only then is the list shown. */
  function Render(p: Page): (v: View)
    ensures v.Spinner? <==> p.loading
    ensures v.ErrorText? <==> !p.loading && p.error.Some?
    ensures v.ErrorText? ==> v.message == p.error.value
    ensures v.PickPrompt? <==> !p.loading && p.error.None? && p.selected.None?
    ensures v.JokeList? <==> !p.loading && p.error.None? && p.selected.Some?
    ensures v.JokeList? ==> v.items == p.jokes
  {
    if p.loading then Spinner
    else if p.error.Some? then ErrorText(p.error.value)
    else if p.selected.None? then PickPrompt
    else JokeList(p.jokes)
  }

  /**
   What holds between user actions once every started load has finished:
   nothing is loading, an error comes with an empty list, and before any
   chip is chosen the page is still blank. A selection, once made, is one of
   the chips.
   */
  predicate Settled(p: Page) {
    && !p.loading
    && (p.error.Some? ==> p.jokes == [])
    && (p.selected.None? ==> p.jokes == [] && p.error.None?)
    && (p.selected.Some? ==> p.selected.value in Categories)
  }

  /** A settled page never shows the spinner, and whatever it shows matches its fields. */
  lemma SettledView(p: Page)
    requires Settled(p)
    ensures !Render(p).Spinner?
    ensures Render(p).ErrorText? ==> p.jokes == []
    ensures Render(p).PickPrompt? ==> p == Initial
  {
  }
}

=== FILE: theme_category_page.dfy ===
/**
 The category page of the `com.example.jokebook.ui.theme` package. A chip
 click only sets `selectedCategory`; the load runs from
 `LaunchedEffect(selectedCategory)`, that is, whenever the selection changes
 to a category. The load keeps the previous list until its result arrives.
 Clicking a joke navigates to `details/<setup>/<punchline>` with both texts
 form-url-encoded.
 */
module ThemeCategoryPage {
  import opened Base
  import opened Jokes
  import opened LoadState
  import opened FormUrlEncoding
  import CategoryPage

  /** A chip click always selects that chip. */
  function ChooseChip(p: Page, category: string): (q: Page)
    ensures q.selected == Some(category)
    ensures q.jokes == p.jokes && q.loading == p.loading && q.error == p.error
  {
    p.(selected := Some(category))
  }

  /** The effect keyed on `selectedCategory` restarts when the key changes, and loads only for a non-null key. */
  function EffectLaunch(before: Option<string>, after: Option<string>): (launched: Option<string>)
    ensures launched.Some? <==> before != after && after.Some?
    ensures launched.Some? ==> launched == after
  {
    if before != after then after else None
  }

  /** First half of the effect: the spinner comes up and the error is cleared, but the old list stays. */
  function StartLoad(p: Page): (q: Page)
    ensures q.loading && q.error.None?
    ensures q.jokes == p.jokes && q.selected == p.selected
  {
    p.(loading := true, error := None)
  }

  /** The whole effect body: the result alone decides the list and the error. */
  function Load(p: Page, r: LoadResult): (q: Page)
    ensures !q.loading && q.selected == p.selected
    ensures r.Ok? ==> q.jokes == r.value && q.error.None?
    ensures r.Err? ==> q.jokes == [] && q.error == Some(ErrorMessage(r.error))
  {
    Complete(StartLoad(p), r)
  }

  /** A chip click, then the effect it triggers (if any) finishing with `result`. */
  function Step(p: Page, category: string, result: LoadResult): (q: Page)
    ensures q.selected == Some(category)
    ensures p.selected == Some(category) ==> q == p
    ensures p.selected != Some(category) && result.Ok? ==> !q.loading && q.jokes == result.value && q.error.None?
    ensures p.selected != Some(category) && result.Err? ==>
              !q.loading && q.jokes == [] && q.error == Some(ErrorMessage(result.error))
  {
    var chosen := ChooseChip(p, category);
    match EffectLaunch(p.selected, chosen.selected)
    case Some(_) => Load(chosen, result)
    case None => chosen
  }

  /** Re-clicking the selected chip neither reloads nor changes anything. */
  lemma ReclickDoesNotReload(p: Page, category: string)
    requires p.selected == Some(category)
    ensures EffectLaunch(p.selected, ChooseChip(p, category).selected).None?
    ensures ChooseChip(p, category) == p
  {
  }

  /**
   While loading, this variant still holds the previous list where the other
   empties it; both show the spinner, and once the load finishes the two
   pages are equal.
   */
  lemma LoadAgreesWithRoot(p: Page, r: LoadResult)
    ensures StartLoad(p).jokes == p.jokes && CategoryPage.StartLoad(p).jokes == []
    ensures Render(StartLoad(p)) == Render(CategoryPage.StartLoad(p)) == Spinner
    ensures Load(p, r) == CategoryPage.Load(p, r)
  {
  }

  /** A chip click has the same outcome here as in the variant that guards reselection by hand. */
  lemma ChipAgreesWithRoot(p: Page, category: string, r: LoadResult)
    requires category in Categories
    ensures Step(p, category, r) == CategoryPage.Step(p, CategoryPage.ChipClicked(category), r)
  {
  }

  /** Chip clicks replayed in order. */
  function Run(p: Page, clicks: seq<(string, LoadResult)>): Page
    decreases |clicks|
  {
    if clicks == [] then p else Run(Step(p, clicks[0].0, clicks[0].1), clicks[1..])
  }

  /** Any run of chip clicks ends exactly where the other variant's page ends, and so ends settled. */
  lemma {:induction false} RunAgreesWithRoot(p: Page, clicks: seq<(string, LoadResult)>)
    requires Settled(p)
    requires forall i :: 0 <= i < |clicks| ==> clicks[i].0 in Categories
    ensures Run(p, clicks) == CategoryPage.Run(p, seq(|clicks|, i requires 0 <= i < |clicks| => (CategoryPage.ChipClicked(clicks[i].0), clicks[i].1)))
    ensures Settled(Run(p, clicks))
    decreases |clicks|
  {
    var actions := seq(|clicks|, i requires 0 <= i < |clicks| => (CategoryPage.ChipClicked(clicks[i].0), clicks[i].1));
    if clicks != [] {
      ChipAgreesWithRoot(p, clicks[0].0, clicks[0].1);
      CategoryPage.StepKeepsSettled(p, actions[0].0, actions[0].1);
      var q := Step(p, clicks[0].0, clicks[0].1);
      RunAgreesWithRoot(q, clicks[1..]);
      assert actions[1..] == seq(|clicks[1..]|, i requires 0 <= i < |clicks[1..]| => (CategoryPage.ChipClicked(clicks[1..][i].0), clicks[1..][i].1));
    }
    CategoryPage.RunKeepsSettled(p, actions);
  }

  /** A failed load with a category selected shows the error rather than the (empty) list. */
  lemma FailedLoadShowsError(p: Page, category: string, failure: Option<string>)
    requires p.selected != Some(category)
    ensures Render(Step(p, category, Err(failure))) == ErrorText(ErrorMessage(failure))
  {
  }

  /** The literal path segment `details`. */
  const DetailsSegment: seq<byte> := [0x64, 0x65, 0x74, 0x61, 0x69, 0x6C, 0x73]

  /** In `a/b/c` with no `/` inside `a`, `b` or `c`, the only `/` are the two separators. */
  lemma SlashPositions(a: seq<byte>, b: seq<byte>, c: seq<byte>)
    requires Slash !in a && Slash !in b && Slash !in c
    ensures var r := a + [Slash] + b + [Slash] + c;
            forall i :: 0 <= i < |r| && r[i] == Slash ==> i == |a| || i == |a| + 1 + |b|
  {
  }

  /**
   `"details/$setupEncoded/$punchEncoded"`: the route holds exactly two `/`,
   one right after `details` and one right after the encoded setup.
   */
  function EncodedRoute(joke: Joke): (r: seq<byte>)
    ensures |r| == |DetailsSegment| + |Encode(joke.setup)| + |Encode(joke.punchline)| + 2
    ensures r[..|DetailsSegment|] == DetailsSegment
    ensures r[|DetailsSegment|] == Slash && r[|DetailsSegment| + 1 + |Encode(joke.setup)|] == Slash
    ensures forall i :: 0 <= i < |r| && r[i] == Slash ==> i == |DetailsSegment| || i == |DetailsSegment| + 1 + |Encode(joke.setup)|
  {
    EncodeHasNoSlash(joke.setup);
    EncodeHasNoSlash(joke.punchline);
    SlashPositions(DetailsSegment, Encode(joke.setup), Encode(joke.punchline));
    DetailsSegment + [Slash] + Encode(joke.setup) + [Slash] + Encode(joke.punchline)
  }

  /** The pieces of `s` between occurrences of `separator`. */
  function Split(s: seq<byte>, separator: byte): (parts: seq<seq<byte>>)
    ensures |parts| >= 1
  {
    if s == [] then [[]]
    else
      var rest := Split(s[1..], separator);
      if s[0] == separator then [[]] + rest else [[s[0]] + rest[0]] + rest[1..]
  }

  lemma {:induction false} SplitPlain(s: seq<byte>, separator: byte)
    requires separator !in s
    ensures Split(s, separator) == [s]
  {
    if s != [] {
      SplitPlain(s[1..], separator);
      assert [s[0]] + s[1..] == s;
    }
  }

  lemma {:induction false} SplitAtFirst(a: seq<byte>, separator: byte, b: seq<byte>)
    requires separator !in a
    ensures Split(a + [separator] + b, separator) == [a] + Split(b, separator)
  {
    var s := a + [separator] + b;
    if a == [] {
      assert s[1..] == b;
    } else {
      assert s[1..] == a[1..] + [separator] + b;
      SplitAtFirst(a[1..], separator, b);
      assert [a[0]] + a[1..] == a;
    }
  }

  /**
   The route has exactly three segments, `details` and the two encoded
   texts, and decoding the second and third gives back the joke's setup and
   punchline.
   */
  lemma RouteRoundTrip(joke: Joke)
    ensures Split(EncodedRoute(joke), Slash) == [DetailsSegment, Encode(joke.setup), Encode(joke.punchline)]
    ensures Decode(Split(EncodedRoute(joke), Slash)[1]) == Ok(joke.setup)
    ensures Decode(Split(EncodedRoute(joke), Slash)[2]) == Ok(joke.punchline)
  {
    var e1, e2 := Encode(joke.setup), Encode(joke.punchline);
    EncodeHasNoSlash(joke.setup);
    EncodeHasNoSlash(joke.punchline);
    assert EncodedRoute(joke) == DetailsSegment + [Slash] + (e1 + [Slash] + e2);
    SplitAtFirst(DetailsSegment, Slash, e1 + [Slash] + e2);
    SplitAtFirst(e1, Slash, e2);
    SplitPlain(e2, Slash);
    DecodeEncode(joke.setup);
    DecodeEncode(joke.punchline);
  }
}
